=== FILE: README.md ===
# Scheduled mail dispatch: a Dafny model

This project models the scheduling core of a small Flask application. The
application lets a user post a message (recipient, subject, body) with a send
time. It keeps the message in an SQLite table `emails` and has a background
thread mail it once the time has come. The model covers five pieces:

- **Timestamp text.** The datetime adapter writes a datetime as
  `YYYY-MM-DD HH:MM:SS` (`Timestamp.Format`, `Timestamp.Adapt`). The converter
  function's parse of that text is `Timestamp.Parse`; it is modelled on
  decoded text, although sqlite3 would hand a registered converter bytes. Dates follow the Gregorian calendar with
  Python's year range 1..9999 (`Calendar`).
- **Intake parsing.** The form's send time `YYYY-MM-DDTHH:MM` is parsed with
  seconds set to 0 (`Timestamp.ParseLocal`). The Madrid zone is then attached,
  which leaves the wall-clock fields as they are. On the first and last days
  Python can represent, pytz overflows instead (`Timestamp.Localize`).
- **The `emails` table.** It is a map from id to row. The model keeps the
  table's AUTOINCREMENT high-water mark, and it covers insert, delete and the
  due test `send_date <= ?` (`EmailStore`). SQLite compares these TEXT values
  with its BINARY collation (`TextOrder.Compare`).
- **The intake handler.** Parse the time, localise it, insert the row, and
  answer with a redirect or the error text (`Intake.Submit`).
- **One dispatch cycle.** Fetch the due rows, send and delete each, and commit
  once at the end. A database error inside the connection's `with` block rolls
  the cycle back (`Dispatch.RunCycle`).

The main results are these:

- On zero-padded text, the converter's parse is exactly the inverse of the
  adapter's format.
- Formatted timestamps are 19 characters long.
- Text order on formatted timestamps is chronological order. Through
  `date.toordinal()`, it is also order of elapsed seconds. This is what makes the
  SQL comparison `send_date <= ?` a time comparison.
- AUTOINCREMENT never reissues an id.
- A committed cycle sends exactly one mail per due row, in rowid order, and
  removes exactly the due rows.
- A cycle that fails leaves the table unchanged. Any mails it has already sent
  stay sent, so those rows are selected and sent again at the next cycle.

Four behaviours of the code are kept as they are:

- The clock is read in UTC, while send dates are Madrid wall-clock text. The
  two texts are compared directly, so a message goes out one or two hours
  after its Madrid time (`Dispatch.UtcClockDelaysDispatch`).
- The provider call swallows its own exceptions. To the loop, a send therefore
  always succeeds, and the row is always deleted after it.
- Nothing checks that the recipient is non-empty. The only constraint is
  `NOT NULL`, and a form value is always a string.
- Times are not normalised to an absolute instant before they are stored. The
  stored value is the Madrid wall-clock text.

In short, the code does not keep a message whose send failed, does not store
absolute instants, and does not reject an empty recipient; the model follows
the code.

The provider's only modelled effect is the list of mails handed to it, in call
order: the `sent` out-parameter of `Dispatch.RunCycle`. Which database
statement, if any, raises during a cycle is an input (`Dispatch.Fault`). The
clock reading `now` is an input too.

## Model

| member | source | states |
|---|---|---|
| Timestamp.Format | app.py:22 | the adapter's text for any valid datetime is exactly 19 characters long |
| Timestamp.Parse | app.py:26-27 | the converter succeeds only with a valid calendar datetime (Feb 29 only in leap years, day within month length, hour 0-23, minute and second 0-59, year 1-9999) |
| Timestamp.ParseInvertsFormat | app.py:20-27 | a text parses to datetime d if and only if d is valid and the text is the adapter's formatting of d: the round trip, and the rejection of every other canonical zero-padded text |
| Timestamp.FormatOrder | app.py:22 | the three-way SQLite text comparison of two formatted timestamps equals the field-by-field datetime comparison |
| Timestamp.FormattedLeIsTimeLe | app.py:90 | for formatted timestamps, text `<=` holds exactly when the first wall-clock time's elapsed seconds since 0001-01-01 are at most the second's |
| Timestamp.Adapt | app.py:20-23 | a datetime becomes 19-character text; any non-datetime value is returned unchanged |
| Timestamp.AdaptRoundTrip | app.py:20-27 | the converter reads an adapted datetime back as exactly its wall-clock fields |
| Timestamp.AdaptIgnoresZoneAndMicroseconds | app.py:20-23 | two datetimes are adapted to the same text if and only if their wall-clock fields agree, whatever their zone and microseconds |
| Timestamp.Localize | app.py:65 | localising a naive datetime fails with an overflow exactly on 0001-01-01 and 9999-12-31; otherwise it attaches the Madrid zone and keeps the wall-clock fields, microseconds and validity |
| Timestamp.LocalizeFailsOffRange | app.py:65 | localising fails exactly when the day before or the day after the wall-clock date lies outside Python's day numbers 1..3652059 |
| Timestamp.LocalizedStoredAsWallClock | app.py:65-75 | a send time that localises is written to the table as its Madrid wall-clock text |
| Timestamp.ParseLocal | app.py:62 | a parsed form time is a valid datetime with second 0 |
| Timestamp.ParseLocalInvertsFormatLocal | app.py:62 | a zero-padded form text parses to d if and only if d is valid, has second 0, and the text is d's `YYYY-MM-DDTHH:MM` spelling with `T` or `t` |
| Calendar.ChronoIsTimeOrder | app.py:88-90 | for valid datetimes, comparing fields most significant first agrees with comparing elapsed seconds built from `toordinal()` |
| Digits.ComparePad | app.py:22 | zero-padded fields of one width compare as text exactly as their numbers compare |
| Digits.NumberOfPad | app.py:26-27 | reading a zero-padded field back yields the number that was printed |
| TextOrder.Compare | app.py:90 | SQLite's three-way TEXT comparison is -1, 0 or 1, is 0 exactly for equal texts, and never puts a prefix after its extension |
| TextOrder.CompareAtFirstDifference | app.py:90 | after any common prefix, the next character decides the comparison, and the text that ends there sorts first |
| TextOrder.CompareAntisymmetric | app.py:90 | swapping the two texts flips the sign of the comparison |
| TextOrder.TextLeTransitive | app.py:90 | SQLite's TEXT `<=` is transitive |
| EmailStore.Insert | app.py:72-76 | of SQLite's failures only rowid exhaustion is modelled, and the insert fails exactly then; otherwise it adds exactly one row under a new id above every id ever issued, stores the given row there, leaves every other row unchanged, and keeps the table well formed |
| EmailStore.Step | app.py:72-76 | one insert or delete keeps the table well formed, never lowers the high-water mark, and issues at most one id, above the old mark and equal to the new one; a delete issues none |
| EmailStore.IdsNeverReused | app.py:39 | over any sequence of inserts and deletes the issued ids strictly increase and all exceed the high-water mark at the start |
| EmailStore.Delete | app.py:99 | delete removes only the given id, keeps every other row and the high-water mark, and is a no-op when the id is absent |
| EmailStore.DeleteIdempotent | app.py:99 | deleting an id twice equals deleting it once |
| EmailStore.IsDue | app.py:90 | the due test is not strict: a row set for exactly `now` is due, and a row is due exactly when `now` does not sort before its send date |
| EmailStore.DueMeansNotLater | app.py:90 | a row written through the adapter is due at a formatted `now` exactly when its wall-clock time is not later than `now`'s |
| EmailStore.DueStaysDue | app.py:90 | a row due at one `now` is due at every text-later `now`, so a row left in the table is fetched again by a later cycle |
| Dispatch.FetchDue | app.py:90-91 | the fetched snapshot holds each stored row whose send date is text-`<=` `now` exactly once, with its stored contents, in ascending id order, and nothing else |
| Dispatch.Send | app.py:98 | the provider call always returns to the loop and records exactly the one mail it was handed after the earlier ones, which it leaves unchanged |
| Dispatch.Deliver | app.py:96-99 | the loop sends one mail per fetched row, in order, before deleting it; with no failing delete, every fetched row is sent and removed; a failing delete at index k stops the loop after k+1 sends |
| Dispatch.RunCycle | app.py:84-103 | a committed cycle sent exactly the due rows' mails, once each, removed exactly the due rows and left the others untouched; a cycle whose select, delete or commit raises leaves the table as it was, having sent a prefix of the due mails (none, k+1, or all of them) |
| Dispatch.UtcClockDelaysDispatch | app.py:88-90 | with Madrid one or two hours ahead of UTC, a row stored as Madrid wall-clock time w is due exactly once the UTC reading reaches w, so it is not due during the hour or two after w has come in Madrid |
| Dispatch.UtcNowMeetsMadridWallClock | app.py:88-90 | a message set for 12:00 Madrid time is not yet due when the UTC clock reads 11:30, although that is 13:30 in Madrid |
| Intake.Submit | app.py:56-82 | a redirect is answered exactly when all four fields are present, the send time parses, its date is neither 0001-01-01 nor 9999-12-31, and an id is left; the row then stores the parsed Madrid wall clock as text under the next id; on the error page the table is unchanged |
| Intake.SubmitStoresWallClock | app.py:62-82 | a form time `YYYY-MM-DDTHH:MM` (or with `t`) of a valid datetime is stored as `YYYY-MM-DD HH:MM:00` under the next id and parses back as that datetime; on 0001-01-01 and 9999-12-31 the error page is answered instead |
| Intake.SubmitRejectsOtherSpellings | app.py:62-82 | a send-time text that is not a zero-padded form spelling of any valid whole-minute datetime yields the error page and leaves the table unchanged |

## Left out

- Flask routing, templates, `redirect` and `url_for` are not modelled. Request-form access is modelled only as four optional field values.
- `init_db`, the SQLite connection, and adapter and converter registration are replaced by the in-memory `EmailStore.Store`. No connection passes `detect_types`, so the converter is never invoked by the application.
- The SendGrid client, the HTTP request and the response status are left out because they are a foreign library. The sender is reduced to the mail it is handed.
- pytz zone tables, daylight-saving offsets and `datetime.now(pytz.utc)` are left out. `now` is an input. Localising labels the zone and fails on the two edge days; the offset it picks is not modelled, because the adapter drops it.
- The daemon thread, the `while True` loop and `sleep(60)` are left out. One cycle is modelled, and concurrent inserts during a cycle are not.
- Log output (`print`) is left out, and `print` is assumed never to raise. A raising `print` in the dispatch loop would land in the catch-all and roll the cycle back after earlier mails were sent; in the handler it would answer the error page.
- EmailStore.Insert: only rowid exhaustion (`SQLITE_FULL` at id 2^63-1) is modelled as a failure. The INSERT also raises `sqlite3.OperationalError` when the database is locked, which is likely while a dispatch cycle holds its write transaction across SendGrid calls and the 5-second busy timeout runs out. It also raises on I/O errors and on a full disk. None of these is an input of the model.
- Intake.Submit: an insert fails only on rowid exhaustion here. Other backend errors (a locked database, I/O failure) also lead to the error page with the table unchanged, but they are not inputs of the model.
- Timestamp.ParseLocal: accepts only the zero-padded `YYYY-MM-DDTHH:MM`, with `T` or `t` (strptime matches letters ignoring case). Python's strptime also accepts single-digit month, day, hour and minute, a space-padded day, and non-ASCII decimal digits; those spellings are rejected here.
- Timestamp.ParseLocalInvertsFormatLocal: its rejection half covers zero-padded spellings only; the unpadded, space-padded and non-ASCII-digit spellings above parse in Python but not here.
- Intake.SubmitRejectsOtherSpellings: the same limit; for those lenient spellings Python stores the message, while the model answers with the error page.
- Timestamp.Parse: models `strptime` on decoded text. sqlite3 passes a registered converter bytes, so `convert_datetime` as registered would raise `TypeError` if a connection ever enabled `detect_types`. Only the canonical `YYYY-MM-DD HH:MM:SS` is accepted; strptime's extra spellings (unpadded fields, any whitespace run for the blank) are rejected here.
- Timestamp.ParseInvertsFormat: its rejection half covers canonical zero-padded text only, for the same reason.
- Timestamp.Format: `%Y` is padded to four digits for every year, as Python documents. CPython 3.12 and earlier on glibc print years below 1000 without padding (`999-01-02 03:04:05`). For years 1-999 on those versions, the 19-character length and the `Format`, `FormatOrder` and `AdaptRoundTrip` results do not hold, and that variant is not modelled.

=== FILE: calendar.dfy ===
/** Naive Gregorian date-times as Python's `datetime.datetime` holds them
    (wall-clock fields only), their validity, their comparison, and their
    position on the time line. */
module Calendar {
  import opened Ordering

  /** `datetime.MINYEAR` and `datetime.MAXYEAR`. */
  const MinYear := 1
  const MaxYear := 9999

  datatype DateTime = DateTime(year: int, month: int, day: int, hour: int, minute: int, second: int)

  /** The Gregorian rule: every fourth year, except centuries not divisible by 400. */
  predicate IsLeap(y: int)
  {
    y % 4 == 0 && (y % 100 != 0 || y % 400 == 0)
  }

  function DaysInMonth(y: int, m: int): int
    requires 1 <= m <= 12
  {
    if m == 2 then (if IsLeap(y) then 29 else 28)
    else if m == 4 || m == 6 || m == 9 || m == 11 then 30
    else 31
  }

  function DaysInYear(y: int): int
  {
    if IsLeap(y) then 366 else 365
  }

  /** What the `datetime` constructor accepts: any other field combination
      raises `ValueError`. */
  predicate Valid(d: DateTime)
  {
    && MinYear <= d.year <= MaxYear
    && 1 <= d.month <= 12
    && 1 <= d.day <= DaysInMonth(d.year, d.month)
    && 0 <= d.hour < 24
    && 0 <= d.minute < 60
    && 0 <= d.second < 60
  }

  /** Comparison of two naive datetimes: field by field, most significant first. */
  function Chrono(a: DateTime, b: DateTime): int
  {
    ThenCmp(IntCmp(a.year, b.year),
    ThenCmp(IntCmp(a.month, b.month),
    ThenCmp(IntCmp(a.day, b.day),
    ThenCmp(IntCmp(a.hour, b.hour),
    ThenCmp(IntCmp(a.minute, b.minute),
            IntCmp(a.second, b.second))))))
  }

  /** Days in the years before `y`, counted from 0001-01-01. */
  function DaysBeforeYear(y: int): int
    requires y >= 1
  {
    var p := y - 1;
    p * 365 + p / 4 - p / 100 + p / 400
  }

  /** Days in the months of year `y` before month `m`. */
  function DaysBeforeMonth(y: int, m: int): int
    requires 1 <= m <= 12
  {
    [0, 31, 59, 90, 120, 151, 181, 212, 243, 273, 304, 334][m - 1]
      + (if m > 2 && IsLeap(y) then 1 else 0)
  }

  /** `date.toordinal()`: 0001-01-01 is day 1. */
  function Ordinal(d: DateTime): int
    requires Valid(d)
  {
    DaysBeforeYear(d.year) + DaysBeforeMonth(d.year, d.month) + d.day
  }

  /** Seconds elapsed from 0001-01-01 00:00:00 to `d`, on a clock without leap seconds. */
  function Seconds(d: DateTime): int
    requires Valid(d)
  {
    (Ordinal(d) - 1) * 86400 + d.hour * 3600 + d.minute * 60 + d.second
  }

  lemma StepBy4(p: nat)
    ensures (p + 1) / 4 == p / 4 + (if (p + 1) % 4 == 0 then 1 else 0)
  {
  }

  lemma StepBy100(p: nat)
    ensures (p + 1) / 100 == p / 100 + (if (p + 1) % 100 == 0 then 1 else 0)
  {
  }

  lemma StepBy400(p: nat)
    ensures (p + 1) / 400 == p / 400 + (if (p + 1) % 400 == 0 then 1 else 0)
  {
  }

  lemma CenturyDivisor(y: int)
    requires y % 400 == 0
    ensures y % 100 == 0
  {
    var m := 4 * (y / 400);
    assert y == 100 * m;
  }

  lemma QuadrennialDivisor(y: int)
    requires y % 100 == 0
    ensures y % 4 == 0
  {
    var m := 25 * (y / 100);
    assert y == 4 * m;
  }

  lemma LeapDivisors(y: int)
    ensures y % 400 == 0 ==> y % 100 == 0
    ensures y % 100 == 0 ==> y % 4 == 0
  {
    if y % 400 == 0 {
      CenturyDivisor(y);
    }
    if y % 100 == 0 {
      QuadrennialDivisor(y);
    }
  }

  /** Year `y` contributes exactly its own length to the day count. */
  lemma YearStep(y: int)
    requires y >= 1
    ensures DaysBeforeYear(y + 1) == DaysBeforeYear(y) + DaysInYear(y)
  {
    var p := y - 1;
    StepBy4(p);
    StepBy100(p);
    StepBy400(p);
    LeapDivisors(y);
    var leap := (if y % 4 == 0 then 1 else 0) - (if y % 100 == 0 then 1 else 0) + (if y % 400 == 0 then 1 else 0);
    assert DaysInYear(y) == 365 + leap;
    assert DaysBeforeYear(y + 1) - DaysBeforeYear(y) == 365 + leap;
  }

  lemma {:induction false} YearsMonotone(y: int, z: int)
    requires 1 <= y < z
    ensures DaysBeforeYear(y) + DaysInYear(y) <= DaysBeforeYear(z)
    decreases z - y
  {
    YearStep(y);
    if y + 1 < z {
      YearsMonotone(y + 1, z);
    }
  }

  lemma MonthsMonotone(y: int, m: int, n: int)
    requires 1 <= m < n <= 12
    ensures DaysBeforeMonth(y, m) + DaysInMonth(y, m) <= DaysBeforeMonth(y, n)
  {
  }

  lemma MonthsFitYear(y: int, m: int)
    requires 1 <= m <= 12
    ensures DaysBeforeMonth(y, m) + DaysInMonth(y, m) <= DaysInYear(y)
  {
  }

  /** Comparing year, month and day in order is the same as comparing day numbers. */
  lemma DateIsDayOrder(a: DateTime, b: DateTime)
    requires Valid(a) && Valid(b)
    ensures ThenCmp(IntCmp(a.year, b.year), ThenCmp(IntCmp(a.month, b.month), IntCmp(a.day, b.day)))
         == IntCmp(Ordinal(a), Ordinal(b))
  {
    if a.year != b.year {
      var (x, y) := if a.year < b.year then (a, b) else (b, a);
      YearsMonotone(x.year, y.year);
      MonthsFitYear(x.year, x.month);
      assert Ordinal(x) < Ordinal(y);
    } else if a.month != b.month {
      var (x, y) := if a.month < b.month then (a, b) else (b, a);
      MonthsMonotone(x.year, x.month, y.month);
      assert Ordinal(x) < Ordinal(y);
    }
  }

  /** A later day means a later instant, whatever the times of day. */
  lemma DaysDominate(a: DateTime, b: DateTime)
    requires Valid(a) && Valid(b) && Ordinal(a) < Ordinal(b)
    ensures Seconds(a) < Seconds(b)
  {
    var ta := a.hour * 3600 + a.minute * 60 + a.second;
    var oa, ob := Ordinal(a) - 1, Ordinal(b) - 1;
    assert ta < 86400;
    assert oa * 86400 + 86400 <= ob * 86400;
  }

  /** Comparing the fields in order is the same as comparing positions on the
      time line: an earlier year, month, day, hour, minute or second (with all
      more significant fields equal) always means an earlier instant. */
  lemma ChronoIsTimeOrder(a: DateTime, b: DateTime)
    requires Valid(a) && Valid(b)
    ensures Chrono(a, b) == IntCmp(Seconds(a), Seconds(b))
  {
    DateIsDayOrder(a, b);
    if Ordinal(a) < Ordinal(b) {
      DaysDominate(a, b);
    } else if Ordinal(b) < Ordinal(a) {
      DaysDominate(b, a);
    }
  }

  /** `date.max.toordinal()`: the day number of 9999-12-31. */
  const MaxOrdinal := 3652059

  lemma LastDayOrdinal()
    ensures Ordinal(DateTime(MaxYear, 12, 31, 0, 0, 0)) == MaxOrdinal
  {
    assert 9998 / 4 == 2499 && 9998 / 100 == 99 && 9998 / 400 == 24;
  }

  lemma AfterFirstDay(d: DateTime)
    requires Valid(d)
    ensures 1 <= Ordinal(d)
    ensures Ordinal(d) == 1 <==> d.year == MinYear && d.month == 1 && d.day == 1
  {
    if d.year > MinYear {
      YearsMonotone(MinYear, d.year);
    }
    assert DaysBeforeYear(MinYear) == 0;
  }

  lemma BeforeLastDay(d: DateTime)
    requires Valid(d)
    ensures Ordinal(d) <= MaxOrdinal
    ensures Ordinal(d) == MaxOrdinal <==> d.year == MaxYear && d.month == 12 && d.day == 31
  {
    LastDayOrdinal();
    DateIsDayOrder(d, DateTime(MaxYear, 12, 31, 0, 0, 0));
  }

  /** Day numbers run from 1 on 0001-01-01 to MaxOrdinal on 9999-12-31, and
      no other day reaches either end. */
  lemma OrdinalBounds(d: DateTime)
    requires Valid(d)
    ensures 1 <= Ordinal(d) <= MaxOrdinal
    ensures Ordinal(d) == 1 <==> d.year == MinYear && d.month == 1 && d.day == 1
    ensures Ordinal(d) == MaxOrdinal <==> d.year == MaxYear && d.month == 12 && d.day == 31
  {
    AfterFirstDay(d);
    BeforeLastDay(d);
  }
}

=== FILE: digits.dfy ===
/** Fixed-width, zero-padded decimal fields: what strftime prints for `%Y`
    (four digits) and `%m %d %H %M %S` (two digits), and what strptime reads
    back from such a field. */
module Digits {
  import opened Ordering
  import opened TextOrder

  predicate IsDigit(c: char)
  {
    '0' <= c <= '9'
  }

  predicate AllDigits(s: string)
  {
    forall i :: 0 <= i < |s| ==> IsDigit(s[i])
  }

  function DigitChar(d: nat): (c: char)
    requires d < 10
    ensures IsDigit(c)
  {
    (('0' as int) + d) as char
  }

  function DigitValue(c: char): (d: nat)
    requires IsDigit(c)
    ensures d < 10 && DigitChar(d) == c
  {
    (c as int) - ('0' as int)
  }

  function Pow10(w: nat): (p: nat)
    ensures p >= 1
  {
    if w == 0 then 1 else 10 * Pow10(w - 1)
  }

  /** `n` written with exactly `w` decimal digits, leading zeros included. */
  function Pad(n: nat, w: nat): (s: string)
    requires n < Pow10(w)
    ensures |s| == w && AllDigits(s)
  {
    if w == 0 then [] else Pad(n / 10, w - 1) + [DigitChar(n % 10)]
  }

  /** The value of a string of decimal digits, most significant first. */
  function Number(s: string): (n: nat)
    requires AllDigits(s)
    ensures n < Pow10(|s|)
  {
    if |s| == 0 then 0
    else
      var high := Number(s[..|s| - 1]);
      assert high <= Pow10(|s| - 1) - 1;
      high * 10 + DigitValue(s[|s| - 1])
  }

  /** Reading back a padded field gives the number that was printed. */
  lemma {:induction false} NumberOfPad(n: nat, w: nat)
    requires n < Pow10(w)
    ensures Number(Pad(n, w)) == n
  {
    if w > 0 {
      var s := Pad(n, w);
      assert s[..|s| - 1] == Pad(n / 10, w - 1);
      NumberOfPad(n / 10, w - 1);
    }
  }

  /** Printing the value of a digit string with its own width gives the string
      back: a field of digits has no other spelling of the same width. */
  lemma {:induction false} PadOfNumber(s: string)
    requires AllDigits(s)
    ensures Pad(Number(s), |s|) == s
  {
    if |s| > 0 {
      var init := s[..|s| - 1];
      var n := Number(s);
      assert n / 10 == Number(init) && n % 10 == DigitValue(s[|s| - 1]);
      PadOfNumber(init);
      assert s == init + [s[|s| - 1]];
    }
  }

  lemma DigitCharOrder(a: nat, b: nat)
    requires a < 10 && b < 10
    ensures Compare([DigitChar(a)], [DigitChar(b)]) == IntCmp(a, b)
  {
    assert [DigitChar(a)][1..] == [] && [DigitChar(b)][1..] == [];
  }

  lemma DecimalCmp(x: nat, y: nat)
    ensures IntCmp(x, y) == ThenCmp(IntCmp(x / 10, y / 10), IntCmp(x % 10, y % 10))
  {
  }

  /** Padded fields of one width compare as text exactly as their numbers compare. */
  lemma {:induction false} ComparePad(x: nat, y: nat, w: nat)
    requires x < Pow10(w) && y < Pow10(w)
    ensures Compare(Pad(x, w), Pad(y, w)) == IntCmp(x, y)
  {
    if w == 0 {
    } else {
      ComparePad(x / 10, y / 10, w - 1);
      CompareConcat(Pad(x / 10, w - 1), [DigitChar(x % 10)], Pad(y / 10, w - 1), [DigitChar(y % 10)]);
      DigitCharOrder(x % 10, y % 10);
      DecimalCmp(x, y);
    }
  }
}

=== FILE: dispatch.dfy ===
/** One pass of the background dispatcher: select the due rows, hand each to
    the mail provider, delete it, and commit once at the end. A database error
    anywhere inside the connection's `with` block rolls the whole pass back. */
module Dispatch {
  import opened Calendar
  import opened Timestamp
  import opened EmailStore

  /** What the provider is asked to deliver. */
  datatype Mail = Mail(recipient: string, subject: string, body: string)

  function MailOf(row: Row): Mail
  {
    Mail(row.recipient, row.subject, row.body)
  }

  /** The provider call. It catches every exception it meets, so to its caller
      it always returns normally; the one effect kept here is the mail it was
      handed, appended to the outbox in call order. */
  function Send(outbox: seq<Mail>, m: Mail): (outbox': seq<Mail>)
    ensures |outbox'| == |outbox| + 1
    ensures outbox'[..|outbox|] == outbox && outbox'[|outbox|] == m
  {
    outbox + [m]
  }

  /** The mails of a snapshot, one per row, in row order. */
  function Mails(snapshot: seq<(int, Row)>): (ms: seq<Mail>)
    ensures |ms| == |snapshot|
    ensures forall k :: 0 <= k < |snapshot| ==> ms[k] == MailOf(snapshot[k].1)
  {
    seq(|snapshot|, k requires 0 <= k < |snapshot| => MailOf(snapshot[k].1))
  }

  function Ids(snapshot: seq<(int, Row)>): set<int>
  {
    set k | 0 <= k < |snapshot| :: snapshot[k].0
  }

  lemma IdsAppend(snapshot: seq<(int, Row)>, entry: (int, Row))
    ensures Ids(snapshot + [entry]) == Ids(snapshot) + {entry.0}
  {
    var t := snapshot + [entry];
    assert t[|snapshot|] == entry;
    forall x | x in Ids(snapshot)
      ensures x in Ids(t)
    {
      var k :| 0 <= k < |snapshot| && snapshot[k].0 == x;
      assert t[k] == snapshot[k];
    }
  }

  predicate Ascending(snapshot: seq<(int, Row)>)
  {
    forall i, j :: 0 <= i < j < |snapshot| ==> snapshot[i].0 < snapshot[j].0
  }

  /** `snapshot` is what `SELECT * FROM emails WHERE send_date <= now` fetches
      from `s`: each due row exactly once, with its stored contents, in rowid
      order, and nothing else. */
  predicate IsDueSnapshot(s: Store, now: string, snapshot: seq<(int, Row)>)
  {
    && Ascending(snapshot)
    && (forall k :: 0 <= k < |snapshot| ==> snapshot[k].0 in s.rows && snapshot[k].1 == s.rows[snapshot[k].0])
    && (forall id :: id in s.rows ==> (id in Ids(snapshot) <==> IsDue(s.rows[id], now)))
  }

  /** The due query, as a full scan of the table in rowid order. */
  method FetchDue(s: Store, now: string) returns (snapshot: seq<(int, Row)>)
    requires WellFormed(s)
    ensures IsDueSnapshot(s, now, snapshot)
  {
    snapshot := [];
    var id := 1;
    while id <= s.lastId
      invariant 1 <= id <= s.lastId + 1
      invariant Ascending(snapshot)
      invariant forall k :: 0 <= k < |snapshot| ==>
        snapshot[k].0 < id && snapshot[k].0 in s.rows && snapshot[k].1 == s.rows[snapshot[k].0]
      invariant forall x :: x in s.rows && x < id ==> (x in Ids(snapshot) <==> IsDue(s.rows[x], now))
    {
      if id in s.rows && IsDue(s.rows[id], now) {
        IdsAppend(snapshot, (id, s.rows[id]));
        snapshot := snapshot + [(id, s.rows[id])];
      }
      id := id + 1;
    }
  }

  /** Where, if anywhere, the database raises during a cycle. */
  datatype Fault =
    | NoFault
    | SelectFails          // the due query raises
    | DeleteFails(index: nat)  // the delete of the `index`-th due row raises
    | CommitFails          // the final commit raises

  datatype Outcome = Committed | RolledBack

  /** The `for` loop of a cycle: for each fetched row in turn, send its mail,
      then delete it. Stops at the delete that `fault` makes raise, if any;
      otherwise every fetched row has been sent and deleted. */
  method Deliver(s: Store, snapshot: seq<(int, Row)>, fault: Fault)
    returns (current: Store, sent: seq<Mail>, raised: bool)
    requires WellFormed(s)
    ensures |sent| <= |snapshot| && sent == Mails(snapshot)[..|sent|]
    ensures raised <==> fault.DeleteFails? && fault.index < |snapshot|
    ensures raised ==> |sent| == fault.index + 1
    ensures !raised ==> sent == Mails(snapshot) && current == Store(s.rows - Ids(snapshot), s.lastId)
  {
    current := s;
    sent := [];
    var i := 0;
    while i < |snapshot|
      invariant 0 <= i <= |snapshot|
      invariant sent == Mails(snapshot)[..i]
      invariant current == Store(s.rows - Ids(snapshot[..i]), s.lastId)
      invariant !(fault.DeleteFails? && fault.index < i)
    {
      var (id, row) := snapshot[i];
      sent := Send(sent, MailOf(row));
      if fault == DeleteFails(i) {
        return current, sent, true;
      }
      assert snapshot[..i + 1] == snapshot[..i] + [snapshot[i]];
      IdsAppend(snapshot[..i], snapshot[i]);
      current := Delete(current, id);
      i := i + 1;
    }
    assert snapshot[..i] == snapshot;
    raised := false;
  }

  /** `send_scheduled_emails`. `now` is the clock reading, bound to the query
      through the adapter, so only its wall-clock fields matter. */
  method RunCycle(s: Store, now: PyDateTime, fault: Fault)
    returns (s': Store, snapshot: seq<(int, Row)>, sent: seq<Mail>, outcome: Outcome)
    requires WellFormed(s) && ValidObject(now)
    ensures WellFormed(s')
    ensures fault != SelectFails ==> IsDueSnapshot(s, Format(now.wall), snapshot)
    ensures fault == SelectFails ==> snapshot == [] && sent == []
    ensures |sent| <= |snapshot| && sent == Mails(snapshot)[..|sent|]
    ensures outcome == Committed <==> fault == NoFault || (fault.DeleteFails? && fault.index >= |snapshot|)
    ensures outcome == Committed ==>
      && sent == Mails(snapshot)
      && s'.lastId == s.lastId
      && (forall id :: id in s'.rows <==> id in s.rows && !IsDue(s.rows[id], Format(now.wall)))
      && (forall id :: id in s'.rows ==> s'.rows[id] == s.rows[id])
    ensures outcome == RolledBack ==> s' == s
    ensures fault.DeleteFails? && fault.index < |snapshot| ==> |sent| == fault.index + 1
    ensures fault == CommitFails ==> sent == Mails(snapshot)
  {
    var bound := Adapt(DateTimeValue(now));
    if fault == SelectFails {
      return s, [], [], RolledBack;
    }
    snapshot := FetchDue(s, bound.text);
    var current, raised;
    current, sent, raised := Deliver(s, snapshot, fault);
    if raised || fault == CommitFails {
      return s, snapshot, sent, RolledBack;
    }
    return current, snapshot, sent, Committed;
  }

  /** `now` is read in UTC while send dates hold Madrid wall-clock time, and
      the two texts are compared as they are. With Madrid `off` seconds ahead
      of UTC (3600 in winter, 7200 in summer), a row set for wall-clock time `w`
      becomes due exactly when the UTC reading reaches `w`, which is `off`
      seconds after `w` has come in Madrid; in between it is not due. */
  lemma UtcClockDelaysDispatch(row: Row, w: DateTime, u: DateTime, off: int)
    requires Valid(w) && Valid(u) && row.sendDate == Format(w)
    requires off == 3600 || off == 7200
    ensures IsDue(row, Format(u)) <==> Seconds(w) <= Seconds(u)
    ensures Seconds(w) - off <= Seconds(u) < Seconds(w) ==> !IsDue(row, Format(u))
  {
    DueMeansNotLater(row, w, u);
  }

  /** An instance: a mail scheduled for 12:00 in Madrid on 10 October 2026
      (10:00 UTC, summer time) is still not due at 11:30 UTC, when it is
      already 13:30 in Madrid. */
  lemma UtcNowMeetsMadridWallClock()
    ensures !IsDue(Row("to", "subject", "body", Format(DateTime(2026, 10, 10, 12, 0, 0))),
                   Format(DateTime(2026, 10, 10, 11, 30, 0)))
  {
    var w, u := DateTime(2026, 10, 10, 12, 0, 0), DateTime(2026, 10, 10, 11, 30, 0);
    assert Ordinal(w) == Ordinal(u);
    UtcClockDelaysDispatch(Row("to", "subject", "body", Format(w)), w, u, 7200);
  }
}

=== FILE: intake.dfy ===
/** The `send_email` handler, reduced to what it does with the form's four
    fields: parse the send time, attach the Madrid zone, insert the row. Any
    exception along the way (a missing field, a send time strptime rejects, a
    failing insert) lands in one catch-all that answers with an error page. */
module Intake {
  import opened Results
  import opened Calendar
  import opened Timestamp
  import opened EmailStore

  /** The posted form; a field the request lacks is `None`. */
  datatype Form = Form(recipient: Option<string>, subject: Option<string>, body: Option<string>,
                       sendDate: Option<string>)

  /** A redirect back to the index page, or the error text. */
  datatype Response = Redirect | ErrorPage

  predicate Complete(f: Form)
  {
    f.recipient.Some? && f.subject.Some? && f.body.Some? && f.sendDate.Some?
  }

  function Submit(s: Store, f: Form): (r: (Store, Response))
    requires WellFormed(s)
    ensures WellFormed(r.0)
    ensures r.1 == Redirect <==>
      && Complete(f) && ParseLocal(f.sendDate.value).Success?
      && !AtRangeEnd(ParseLocal(f.sendDate.value).value)
      && s.lastId < MaxRowId
    ensures r.1 == ErrorPage ==> r.0 == s
    ensures r.1 == Redirect ==>
      var id := s.lastId + 1;
      && r.0 == Store(s.rows[id := Row(f.recipient.value, f.subject.value, f.body.value,
                                        Format(ParseLocal(f.sendDate.value).value))], id)
  {
    if !Complete(f) then (s, ErrorPage)
    else match ParseLocal(f.sendDate.value)
      case Failure(_) => (s, ErrorPage)
      case Success(wall) =>
        match Localize(PyDateTime(wall, 0, Naive))
        case Failure(_) => (s, ErrorPage)
        case Success(local) =>
          var stored := Adapt(DateTimeValue(local));
          match Insert(s, Row(f.recipient.value, f.subject.value, f.body.value, stored.text))
          case Failure(_) => (s, ErrorPage)
          case Success((s', _)) => (s', Redirect)
  }

  /** A send time picked as `YYYY-MM-DDTHH:MM` is stored under a fresh id as
      the same Madrid wall-clock time, `YYYY-MM-DD HH:MM:00`, which the
      converter reads back as that time; on the first and last days Python
      can represent, localising overflows and the error page is answered. */
  lemma SubmitStoresWallClock(s: Store, recipient: string, subject: string, body: string,
                              d: DateTime, sep: char)
    requires WellFormed(s) && s.lastId < MaxRowId
    requires Valid(d) && d.second == 0 && IsTimeSeparator(sep)
    ensures var r := Submit(s, Form(Some(recipient), Some(subject), Some(body), Some(FormatLocal(d, sep))));
      && (AtRangeEnd(d) ==> r == (s, ErrorPage))
      && (!AtRangeEnd(d) ==>
            r == (Store(s.rows[s.lastId + 1 := Row(recipient, subject, body, Format(d))], s.lastId + 1), Redirect))
    ensures Parse(Format(d)) == Success(d)
  {
    ParseLocalOfFormatLocal(d, sep);
    ParseOfFormat(d);
    SubmitParsed(s, recipient, subject, body, FormatLocal(d, sep), d);
  }

  /** Submit once the send-time text is known to parse to `d`. */
  lemma SubmitParsed(s: Store, recipient: string, subject: string, body: string, text: string, d: DateTime)
    requires WellFormed(s) && s.lastId < MaxRowId && ParseLocal(text) == Success(d)
    ensures var r := Submit(s, Form(Some(recipient), Some(subject), Some(body), Some(text)));
      && (AtRangeEnd(d) ==> r == (s, ErrorPage))
      && (!AtRangeEnd(d) ==>
            r == (Store(s.rows[s.lastId + 1 := Row(recipient, subject, body, Format(d))], s.lastId + 1), Redirect))
  {
  }

  /** Only a form spelling of a valid whole-minute datetime gets a message
      stored; any other zero-padded send-time text yields the error page. */
  lemma SubmitRejectsOtherSpellings(s: Store, recipient: string, subject: string, body: string, text: string)
    requires WellFormed(s)
    requires forall d :: Valid(d) && d.second == 0 ==> text != FormatLocal(d, 'T') && text != FormatLocal(d, 't')
    ensures Submit(s, Form(Some(recipient), Some(subject), Some(body), Some(text))) == (s, ErrorPage)
  {
    if ParseLocal(text).Success? {
      var d := ParseLocal(text).value;
      ParseLocalInvertsFormatLocal(text, d);
      assert false;
    }
  }
}

=== FILE: ordering.dfy ===
/** Three-way comparison results, as Python's rich comparisons and SQLite's
    collations both reduce to: negative, zero or positive. */
module Ordering {

  /** Three-way comparison of integers: -1, 0 or 1. */
  function IntCmp(x: int, y: int): (c: int)
    ensures c == -1 || c == 0 || c == 1
    ensures c < 0 <==> x < y
    ensures c == 0 <==> x == y
  {
    if x < y then -1 else if x == y then 0 else 1
  }

  /** Lexicographic combination: the first comparison decides unless it is a tie. */
  function ThenCmp(first: int, second: int): int
  {
    if first != 0 then first else second
  }
}

=== FILE: results.dfy ===
/** Failure-carrying values: a Python call that can raise becomes a `Result`,
    an optional form field becomes an `Option`. */
module Results {

  datatype Option<+T> = None | Some(value: T)

  datatype Result<+T, +E> = Success(value: T) | Failure(error: E)
}

=== FILE: store.dfy ===
/** The `emails` table: rows keyed by an `INTEGER PRIMARY KEY AUTOINCREMENT`
    id, with the send time held as the adapter's TEXT. */
module EmailStore {
  import opened Results
  import opened TextOrder
  import opened Calendar
  import opened Timestamp

  /** The largest rowid SQLite can hand out (a signed 64-bit integer). */
  const MaxRowId := 0x7FFF_FFFF_FFFF_FFFF

  datatype Row = Row(recipient: string, subject: string, body: string, sendDate: string)

  /** The table's rows, and the table's `sqlite_sequence` entry: the largest
      id ever handed out (0 before the first insert). */
  datatype Store = Store(rows: map<int, Row>, lastId: int)

  const Empty := Store(map[], 0)

  /** Every live id was handed out by AUTOINCREMENT, so it lies in 1..lastId. */
  predicate WellFormed(s: Store)
  {
    && 0 <= s.lastId <= MaxRowId
    && forall id :: id in s.rows ==> 1 <= id <= s.lastId
  }

  /** `SQLITE_FULL`: AUTOINCREMENT has used up the rowid range. */
  datatype StoreError = DatabaseFull

  /** `INSERT INTO emails ...`: the new row gets one more than the largest id
      ever issued. */
  function Insert(s: Store, row: Row): (r: Result<(Store, int), StoreError>)
    requires WellFormed(s)
    ensures r.Failure? <==> s.lastId == MaxRowId
    ensures r.Success? ==>
      var (s', id) := r.value;
      && WellFormed(s')
      && id !in s.rows
      && id > s.lastId
      && s'.lastId == id
      && s'.rows.Keys == s.rows.Keys + {id}
      && s'.rows[id] == row
      && (forall k :: k in s.rows ==> s'.rows[k] == s.rows[k])
  {
    if s.lastId == MaxRowId then Failure(DatabaseFull)
    else
      var id := s.lastId + 1;
      Success((Store(s.rows[id := row], id), id))
  }

  /** `DELETE FROM emails WHERE id = ?`. */
  function Delete(s: Store, id: int): (s': Store)
    ensures id !in s'.rows
    ensures s'.rows.Keys == s.rows.Keys - {id}
    ensures forall k :: k in s'.rows ==> s'.rows[k] == s.rows[k]
    ensures s'.lastId == s.lastId
    ensures id !in s.rows ==> s' == s
    ensures WellFormed(s) ==> WellFormed(s')
  {
    Store(s.rows - {id}, s.lastId)
  }

  /** Deleting twice is deleting once. */
  lemma DeleteIdempotent(s: Store, id: int)
    ensures Delete(Delete(s, id), id) == Delete(s, id)
  {
  }

  /** `send_date <= ?` with the bound parameter already adapted to text. The
      test is not strict: a row set for exactly `now` is due, and a row is due
      exactly when `now` does not sort before its send date. */
  predicate IsDue(row: Row, now: string): (due: bool)
    ensures row.sendDate == now ==> due
    ensures due <==> Compare(now, row.sendDate) >= 0
  {
    CompareAntisymmetric(row.sendDate, now);
    TextLe(row.sendDate, now)
  }

  /** For a row written through the adapter and a formatted `now`, due means
      the stored wall-clock time is not later than `now`'s wall-clock time. */
  lemma DueMeansNotLater(row: Row, at: DateTime, now: DateTime)
    requires Valid(at) && Valid(now) && row.sendDate == Format(at)
    ensures IsDue(row, Format(now)) <==> Seconds(at) <= Seconds(now)
  {
    FormattedLeIsTimeLe(at, now);
  }

  /** A row that is due stays due at every later `now`: a row a cycle did not
      remove is selected again by the next one. */
  lemma {:induction false} DueStaysDue(row: Row, now: string, later: string)
    requires IsDue(row, now) && TextLe(now, later)
    ensures IsDue(row, later)
  {
    TextLeTransitive(row.sendDate, now, later);
  }

  /** One step of the table's life outside a dispatch cycle. */
  datatype Op = InsertOp(row: Row) | DeleteOp(id: int)

  /** One op applied to the table, with the id it issued: one for a
      successful insert, none for a delete or a failed insert. */
  function Step(s: Store, op: Op): (r: (Store, seq<int>))
    requires WellFormed(s)
    ensures WellFormed(r.0) && s.lastId <= r.0.lastId
    ensures |r.1| <= 1 && forall i :: 0 <= i < |r.1| ==> s.lastId < r.1[i] == r.0.lastId
    ensures op.DeleteOp? ==> r.1 == []
  {
    match op
    case InsertOp(row) => (match Insert(s, row) case Success((s', id)) => (s', [id]) case Failure(_) => (s, []))
    case DeleteOp(id) => (Delete(s, id), [])
  }

  /** Applies `ops` in order; a failing insert leaves the table as it was.
      Returns the final table and the ids the successful inserts issued. */
  function Replay(s: Store, ops: seq<Op>): (Store, seq<int>)
    requires WellFormed(s)
    decreases |ops|
  {
    if |ops| == 0 then (s, [])
    else
      var next := Step(s, ops[0]);
      var (final, issued) := Replay(next.0, ops[1..]);
      (final, next.1 + issued)
  }

  predicate StrictlyIncreasing(xs: seq<int>)
  {
    forall i, j :: 0 <= i < j < |xs| ==> xs[i] < xs[j]
  }

  /** AUTOINCREMENT never reissues an id: over any sequence of inserts and
      deletes the issued ids strictly increase, all exceed every id issued
      before the sequence began, and the table stays well formed. */
  lemma {:induction false} IdsNeverReused(s: Store, ops: seq<Op>)
    requires WellFormed(s)
    ensures var (final, issued) := Replay(s, ops);
      && WellFormed(final)
      && s.lastId <= final.lastId
      && StrictlyIncreasing(issued)
      && (forall i :: 0 <= i < |issued| ==> s.lastId < issued[i] <= final.lastId)
    decreases |ops|
  {
    if |ops| > 0 {
      var next := Step(s, ops[0]);
      IdsNeverReused(next.0, ops[1..]);
      var (final, rest) := Replay(next.0, ops[1..]);
      assert Replay(s, ops) == (final, next.1 + rest);
    }
  }
}

=== FILE: textorder.dfy ===
/** Ordering of TEXT values as SQLite compares them under its default BINARY
    collation: `memcmp` over the common prefix, then the shorter value first.
    Because UTF-8 preserves code-point order, comparing the characters of a
    `string` by code point gives the same answer as comparing its bytes. */
module TextOrder {
  import opened Ordering

  /** The sign of SQLite's BINARY comparison of two TEXT values. Only equal
      texts compare equal, and a prefix sorts no later than its extensions. */
  function Compare(a: string, b: string): (c: int)
    ensures c == -1 || c == 0 || c == 1
    ensures c == 0 <==> a == b
    ensures a <= b ==> c <= 0
    decreases |a|
  {
    if |a| == 0 && |b| == 0 then 0
    else if |a| == 0 then -1
    else if |b| == 0 then 1
    else if a[0] < b[0] then -1
    else if a[0] > b[0] then 1
    else
      assert a == [a[0]] + a[1..] && b == [b[0]] + b[1..];
      Compare(a[1..], b[1..])
  }

  /** SQL `a <= b` on two TEXT values. */
  predicate TextLe(a: string, b: string)
  {
    Compare(a, b) <= 0
  }

  /** `memcmp` read off the first difference: once `a` and `b` agree on their
      first `k` characters, the character at `k` decides, and a text that
      ends at `k` sorts before one that goes on. */
  lemma {:induction false} CompareAtFirstDifference(a: string, b: string, k: nat)
    requires k <= |a| && k <= |b| && a[..k] == b[..k]
    ensures k < |a| && k < |b| && a[k] < b[k] ==> Compare(a, b) == -1
    ensures k < |a| && k < |b| && a[k] > b[k] ==> Compare(a, b) == 1
    ensures k == |a| && k < |b| ==> Compare(a, b) == -1
    ensures k < |a| && k == |b| ==> Compare(a, b) == 1
    decreases k
  {
    if k > 0 {
      assert a[0] == a[..k][0] && b[0] == b[..k][0];
      assert a[1..][..k - 1] == a[..k][1..] && b[1..][..k - 1] == b[..k][1..];
      CompareAtFirstDifference(a[1..], b[1..], k - 1);
    }
  }

  /** Swapping the operands flips the sign. */
  lemma {:induction false} CompareAntisymmetric(a: string, b: string)
    ensures Compare(b, a) == -Compare(a, b)
    decreases |a|
  {
    if |a| > 0 && |b| > 0 && a[0] == b[0] {
      CompareAntisymmetric(a[1..], b[1..]);
    }
  }

  /** `<=` on TEXT is transitive. */
  lemma {:induction false} TextLeTransitive(a: string, b: string, c: string)
    requires TextLe(a, b) && TextLe(b, c)
    ensures TextLe(a, c)
    decreases |a|
  {
    if |a| > 0 && |b| > 0 && |c| > 0 && a[0] == b[0] == c[0] {
      TextLeTransitive(a[1..], b[1..], c[1..]);
    }
  }

  /** Comparing two texts made of equally long heads followed by tails: the heads
      decide, and only a tie between the heads hands the decision to the tails.
      This is what lets fixed-width fields be compared one at a time. */
  lemma {:induction false} CompareConcat(a1: string, b1: string, a2: string, b2: string)
    requires |a1| == |a2|
    ensures Compare(a1 + b1, a2 + b2) == ThenCmp(Compare(a1, a2), Compare(b1, b2))
    decreases |a1|
  {
    if |a1| == 0 {
      assert a1 + b1 == b1 && a2 + b2 == b2;
    } else {
      assert (a1 + b1)[1..] == a1[1..] + b1;
      assert (a2 + b2)[1..] == a2[1..] + b2;
      if a1[0] == a2[0] {
        CompareConcat(a1[1..], b1, a2[1..], b2);
      }
    }
  }
}

=== FILE: timestamp.dfy ===
/** The text form of timestamps. The adapter writes a datetime into the
    `emails` table as `YYYY-MM-DD HH:MM:SS`; the converter reads that text back;
    the intake form delivers the send time as `YYYY-MM-DDTHH:MM`.

    strptime matches the format's letters without regard to case, so the
    intake parser takes `t` as well as `T`. Beyond that, both parsers accept
    only the canonical zero-padded layout. Python's strptime also accepts
    single-digit month, day, hour and minute fields, a space-padded day, any
    run of whitespace for the blank, and non-ASCII decimal digits; those
    spellings are rejected here. On the canonical layout the two agree: a
    field out of range makes strptime fail as well. */
module Timestamp {
  import opened Results
  import opened TextOrder
  import opened Digits
  import opened Calendar

  /** `ValueError` from strptime, and `OverflowError` from date arithmetic
      that leaves the years 1..9999. */
  datatype TimestampError = InvalidTimestamp | OutOfRange

  /** `strftime('%Y-%m-%d %H:%M:%S')`, with `%Y` padded to four digits. */
  function Format(d: DateTime): (s: string)
    requires Valid(d)
    ensures |s| == 19
  {
    Pad(d.year, 4) + "-" + Pad(d.month, 2) + "-" + Pad(d.day, 2) + " "
      + Pad(d.hour, 2) + ":" + Pad(d.minute, 2) + ":" + Pad(d.second, 2)
  }

  /** Digits and separators where `YYYY-MM-DD HH:MM:SS` has them. */
  predicate StoredLayout(s: string)
  {
    && |s| == 19
    && AllDigits(s[0..4]) && s[4] == '-' && AllDigits(s[5..7]) && s[7] == '-' && AllDigits(s[8..10])
    && s[10] == ' ' && AllDigits(s[11..13]) && s[13] == ':' && AllDigits(s[14..16])
    && s[16] == ':' && AllDigits(s[17..19])
  }

  /** `strptime(s, '%Y-%m-%d %H:%M:%S')`: the layout must match and the
      fields must make a valid datetime, or `ValueError` is raised. */
  function Parse(s: string): (r: Result<DateTime, TimestampError>)
    ensures r.Success? ==> Valid(r.value)
  {
    if !StoredLayout(s) then Failure(InvalidTimestamp)
    else
      var d := DateTime(Number(s[0..4]), Number(s[5..7]), Number(s[8..10]),
                        Number(s[11..13]), Number(s[14..16]), Number(s[17..19]));
      if Valid(d) then Success(d) else Failure(InvalidTimestamp)
  }

  /** The letter between date and time in `%Y-%m-%dT%H:%M`, matched
      ignoring case. */
  predicate IsTimeSeparator(c: char)
  {
    c == 'T' || c == 't'
  }

  /** The form's `YYYY-MM-DDTHH:MM` spelling of a datetime with zero seconds,
      with `sep` between date and time (a browser sends `T`). */
  function FormatLocal(d: DateTime, sep: char): (s: string)
    requires Valid(d)
    ensures |s| == 16
  {
    Pad(d.year, 4) + "-" + Pad(d.month, 2) + "-" + Pad(d.day, 2) + [sep]
      + Pad(d.hour, 2) + ":" + Pad(d.minute, 2)
  }

  predicate LocalLayout(s: string)
  {
    && |s| == 16
    && AllDigits(s[0..4]) && s[4] == '-' && AllDigits(s[5..7]) && s[7] == '-' && AllDigits(s[8..10])
    && IsTimeSeparator(s[10]) && AllDigits(s[11..13]) && s[13] == ':' && AllDigits(s[14..16])
  }

  /** `strptime(s, '%Y-%m-%dT%H:%M')`: seconds default to 0. */
  function ParseLocal(s: string): (r: Result<DateTime, TimestampError>)
    ensures r.Success? ==> Valid(r.value) && r.value.second == 0
  {
    if !LocalLayout(s) then Failure(InvalidTimestamp)
    else
      var d := DateTime(Number(s[0..4]), Number(s[5..7]), Number(s[8..10]),
                        Number(s[11..13]), Number(s[14..16]), 0);
      if Valid(d) then Success(d) else Failure(InvalidTimestamp)
  }

  /** Splits a formatted timestamp into its fields and separators. */
  lemma FormatFields(d: DateTime)
    requires Valid(d)
    ensures var s := Format(d);
      && s[0..4] == Pad(d.year, 4) && s[4] == '-' && s[5..7] == Pad(d.month, 2) && s[7] == '-'
      && s[8..10] == Pad(d.day, 2) && s[10] == ' ' && s[11..13] == Pad(d.hour, 2) && s[13] == ':'
      && s[14..16] == Pad(d.minute, 2) && s[16] == ':' && s[17..19] == Pad(d.second, 2)
  {
  }

  lemma FormatLocalFields(d: DateTime, sep: char)
    requires Valid(d)
    ensures var s := FormatLocal(d, sep);
      && s[0..4] == Pad(d.year, 4) && s[4] == '-' && s[5..7] == Pad(d.month, 2) && s[7] == '-'
      && s[8..10] == Pad(d.day, 2) && s[10] == sep && s[11..13] == Pad(d.hour, 2) && s[13] == ':'
      && s[14..16] == Pad(d.minute, 2)
  {
  }

  /** A 19-character text is its fields and separators put back together. */
  lemma SplitStored(s: string)
    requires |s| == 19
    ensures s == s[0..4] + [s[4]] + s[5..7] + [s[7]] + s[8..10] + [s[10]]
               + s[11..13] + [s[13]] + s[14..16] + [s[16]] + s[17..19]
  {
  }

  lemma SplitLocal(s: string)
    requires |s| == 16
    ensures s == s[0..4] + [s[4]] + s[5..7] + [s[7]] + s[8..10] + [s[10]]
               + s[11..13] + [s[13]] + s[14..16]
  {
  }

  lemma ParseOfFormat(d: DateTime)
    requires Valid(d)
    ensures Parse(Format(d)) == Success(d)
  {
    FormatFields(d);
    NumberOfPad(d.year, 4);
    NumberOfPad(d.month, 2);
    NumberOfPad(d.day, 2);
    NumberOfPad(d.hour, 2);
    NumberOfPad(d.minute, 2);
    NumberOfPad(d.second, 2);
  }

  lemma FormatOfParse(s: string)
    requires Parse(s).Success?
    ensures Format(Parse(s).value) == s
  {
    PadOfNumber(s[0..4]);
    PadOfNumber(s[5..7]);
    PadOfNumber(s[8..10]);
    PadOfNumber(s[11..13]);
    PadOfNumber(s[14..16]);
    PadOfNumber(s[17..19]);
    SplitStored(s);
  }

  /** The converter is exactly the inverse of the adapter's format: a text
      parses to `d` if and only if it is the formatting of the valid datetime `d`. */
  lemma ParseInvertsFormat(s: string, d: DateTime)
    ensures Parse(s) == Success(d) <==> Valid(d) && s == Format(d)
  {
    if Valid(d) && s == Format(d) {
      ParseOfFormat(d);
    }
    if Parse(s) == Success(d) {
      FormatOfParse(s);
    }
  }

  lemma ParseLocalOfFormatLocal(d: DateTime, sep: char)
    requires Valid(d) && d.second == 0 && IsTimeSeparator(sep)
    ensures ParseLocal(FormatLocal(d, sep)) == Success(d)
  {
    FormatLocalFields(d, sep);
    NumberOfPad(d.year, 4);
    NumberOfPad(d.month, 2);
    NumberOfPad(d.day, 2);
    NumberOfPad(d.hour, 2);
    NumberOfPad(d.minute, 2);
  }

  lemma FormatLocalOfParseLocal(s: string)
    requires ParseLocal(s).Success?
    ensures FormatLocal(ParseLocal(s).value, s[10]) == s
  {
    PadOfNumber(s[0..4]);
    PadOfNumber(s[5..7]);
    PadOfNumber(s[8..10]);
    PadOfNumber(s[11..13]);
    PadOfNumber(s[14..16]);
    SplitLocal(s);
  }

  /** Among zero-padded spellings, the intake parser accepts exactly the form
      spellings of valid datetimes on a whole minute, with `T` or `t` between
      date and time, and yields that datetime with second 0. */
  lemma ParseLocalInvertsFormatLocal(s: string, d: DateTime)
    ensures ParseLocal(s) == Success(d)
        <==> Valid(d) && d.second == 0 && (s == FormatLocal(d, 'T') || s == FormatLocal(d, 't'))
  {
    if Valid(d) && d.second == 0 && s == FormatLocal(d, 'T') {
      ParseLocalOfFormatLocal(d, 'T');
    }
    if Valid(d) && d.second == 0 && s == FormatLocal(d, 't') {
      ParseLocalOfFormatLocal(d, 't');
    }
    if ParseLocal(s) == Success(d) {
      FormatLocalOfParseLocal(s);
    }
  }

  /** Formatted timestamps compare as text exactly as the datetimes compare:
      the fields are fixed-width, most significant first, and the separators
      sit at the same places in both. */
  lemma FormatOrder(a: DateTime, b: DateTime)
    requires Valid(a) && Valid(b)
    ensures Compare(Format(a), Format(b)) == Chrono(a, b)
  {
    var ya, yb := Pad(a.year, 4), Pad(b.year, 4);
    var mo_a, mo_b := Pad(a.month, 2), Pad(b.month, 2);
    var da, db := Pad(a.day, 2), Pad(b.day, 2);
    var ha, hb := Pad(a.hour, 2), Pad(b.hour, 2);
    var mi_a, mi_b := Pad(a.minute, 2), Pad(b.minute, 2);
    var sa, sb := Pad(a.second, 2), Pad(b.second, 2);
    ComparePad(a.year, b.year, 4);
    ComparePad(a.month, b.month, 2);
    ComparePad(a.day, b.day, 2);
    ComparePad(a.hour, b.hour, 2);
    ComparePad(a.minute, b.minute, 2);
    ComparePad(a.second, b.second, 2);
    CompareConcat(ya, "-", yb, "-");
    CompareConcat(ya + "-", mo_a, yb + "-", mo_b);
    CompareConcat(ya + "-" + mo_a, "-", yb + "-" + mo_b, "-");
    CompareConcat(ya + "-" + mo_a + "-", da, yb + "-" + mo_b + "-", db);
    CompareConcat(ya + "-" + mo_a + "-" + da, " ", yb + "-" + mo_b + "-" + db, " ");
    CompareConcat(ya + "-" + mo_a + "-" + da + " ", ha, yb + "-" + mo_b + "-" + db + " ", hb);
    CompareConcat(ya + "-" + mo_a + "-" + da + " " + ha, ":", yb + "-" + mo_b + "-" + db + " " + hb, ":");
    CompareConcat(ya + "-" + mo_a + "-" + da + " " + ha + ":", mi_a,
                  yb + "-" + mo_b + "-" + db + " " + hb + ":", mi_b);
    CompareConcat(ya + "-" + mo_a + "-" + da + " " + ha + ":" + mi_a, ":",
                  yb + "-" + mo_b + "-" + db + " " + hb + ":" + mi_b, ":");
    CompareConcat(ya + "-" + mo_a + "-" + da + " " + ha + ":" + mi_a + ":", sa,
                  yb + "-" + mo_b + "-" + db + " " + hb + ":" + mi_b + ":", sb);
  }

  /** Why `send_date <= ?` is a time comparison: for two formatted
      timestamps, text `<=` holds exactly when the first wall-clock time is not
      later than the second. */
  lemma FormattedLeIsTimeLe(a: DateTime, b: DateTime)
    requires Valid(a) && Valid(b)
    ensures TextLe(Format(a), Format(b)) <==> Seconds(a) <= Seconds(b)
  {
    FormatOrder(a, b);
    ChronoIsTimeOrder(a, b);
  }

  /** The zone attached to a Python datetime. Only the label is kept: the
      offsets of the zone database are not modelled. */
  datatype Zone = Naive | Utc | EuropeMadrid

  /** A `datetime.datetime` object: wall-clock fields, microseconds and zone. */
  datatype PyDateTime = PyDateTime(wall: DateTime, microsecond: int, zone: Zone)

  predicate ValidObject(dt: PyDateTime)
  {
    Valid(dt.wall) && 0 <= dt.microsecond < 1000000
  }

  /** A Python value bound to a statement parameter. sqlite3 calls the adapter
      only for `datetime.datetime` values; the other constructors stand for
      direct calls of the adapter function on other values. */
  datatype PyValue = DateTimeValue(dt: PyDateTime) | TextValue(text: string) | IntValue(n: int) | NoneValue

  /** `adapt_datetime`: a datetime becomes fixed-width text; every other value
      passes through unchanged. */
  function Adapt(v: PyValue): (r: PyValue)
    requires v.DateTimeValue? ==> ValidObject(v.dt)
    ensures v.DateTimeValue? ==> r.TextValue? && |r.text| == 19
    ensures !v.DateTimeValue? ==> r == v
  {
    if v.DateTimeValue? then TextValue(Format(v.dt.wall)) else v
  }

  /** The converter reads an adapted datetime back as its wall-clock fields. */
  lemma AdaptRoundTrip(dt: PyDateTime)
    requires ValidObject(dt)
    ensures Parse(Adapt(DateTimeValue(dt)).text) == Success(dt.wall)
  {
    ParseOfFormat(dt.wall);
  }

  /** The adapter only sees the wall clock: two datetimes that differ only in
      zone or microseconds are stored as the same text. */
  lemma AdaptIgnoresZoneAndMicroseconds(x: PyDateTime, y: PyDateTime)
    requires ValidObject(x) && ValidObject(y)
    ensures Adapt(DateTimeValue(x)) == Adapt(DateTimeValue(y)) <==> x.wall == y.wall
  {
    if Adapt(DateTimeValue(x)) == Adapt(DateTimeValue(y)) {
      ParseInvertsFormat(Format(x.wall), x.wall);
      ParseInvertsFormat(Format(y.wall), y.wall);
    }
  }

  /** The first and last days a Python `date` can hold. */
  predicate AtRangeEnd(d: DateTime)
  {
    || (d.year == MinYear && d.month == 1 && d.day == 1)
    || (d.year == MaxYear && d.month == 12 && d.day == 31)
  }

  /** `MADRID_TZ.localize(dt)` on a naive datetime. pytz first looks up the
      zone's offsets one day either side of `dt`; on the first and last days
      Python can represent, that shifted datetime does not exist and
      `OverflowError` is raised. Otherwise the zone is attached and the
      wall-clock fields stay as they are, whatever the daylight-saving rules
      make of them. */
  function Localize(dt: PyDateTime): (r: Result<PyDateTime, TimestampError>)
    requires dt.zone == Naive
    ensures r.Failure? <==> AtRangeEnd(dt.wall)
    ensures r.Success? ==>
      && r.value.wall == dt.wall && r.value.microsecond == dt.microsecond
      && r.value.zone == EuropeMadrid
      && (ValidObject(dt) ==> ValidObject(r.value))
  {
    if AtRangeEnd(dt.wall) then Failure(OutOfRange) else Success(dt.(zone := EuropeMadrid))
  }

  /** Localising fails exactly when the day before or the day after `dt`
      falls outside Python's day numbers 1..MaxOrdinal. */
  lemma LocalizeFailsOffRange(dt: PyDateTime)
    requires dt.zone == Naive && ValidObject(dt)
    ensures Localize(dt).Failure? <==> Ordinal(dt.wall) - 1 < 1 || Ordinal(dt.wall) + 1 > MaxOrdinal
  {
    OrdinalBounds(dt.wall);
  }

  /** A Madrid-localised send time is written as its Madrid wall-clock text. */
  lemma LocalizedStoredAsWallClock(dt: PyDateTime)
    requires dt.zone == Naive && ValidObject(dt)
    ensures Localize(dt).Success? ==> Adapt(DateTimeValue(Localize(dt).value)) == TextValue(Format(dt.wall))
  {
  }
}
